=== FILE: README.md ===
# NBA fantasy rankings: the ranking pipeline in Dafny

This project models the deterministic part of `nba.py`, a script that
downloads per-player statistics for one NBA season, scores every player and
writes a ranked CSV file. Two downloads are made: one "per game" and one
"per 36 minutes". The model covers the following:

- **Run configuration.** `NbaStatsParser.__init__` builds the season id from
  the year (`2020` gives `"2020-21"`). It turns an absent date bound into `""`
  and an absent column list into the nine default columns. `main` fills the
  date bounds and the column list from the command line.
- **Composite score.** Each table gets a `ZSCORE` column. As written, it is
  the sum of the row's *raw* values in the selected columns.
- **Merge.** The per-game table is joined with the per-36 scores. This is a
  pandas left join on the row index, so per-game row *i* meets per-36 row
  *i* whoever its player is. Both `PLAYER_ID` columns are dropped.
  `ZSCORE_DIFF = ZSCORE_PER36 - ZSCORE_PERGAME` is added.
- **Ranking.** Rows are sorted by `ZSCORE_PERGAME` descending, with ties
  broken by `ZSCORE_PER36` descending. This follows pandas'
  `na_position="last"`: among rows with equal per-game scores, a missing
  per-36 score comes after every present one.
- **Output file name.** `overall_<season>_<cols joined by "-">`, then
  `_<dateFrom>` and `_<dateTo>` for the bounds that are non-empty, then `.csv`.

Scores are exact `real`s, not floats. A missing value (pandas' NaN) is
`Option.None`. A step that raises `KeyError` ends the run, and it is modelled
as a `None` result. Tables are sequences of row records. Each record holds
the player id, the player name, and a map from numeric column names to values.

Points where the code does something other than a reader might expect, modelled as written:

- the composite sums raw columns, not z-scores;
- the join is by position, not by player id;
- the output keeps no player id;
- with only three command-line arguments, the one date given is ignored;
- the season suffix is the last two *characters* of `str(year + 1)`, so year
  8 gives `"8-9"` and year -5 gives `"-5--4"`.

A join on player id is kept as a reference definition (`Merge.JoinByPlayerId`).
It is proved equal to the positional join when three premises hold: the
per-36 table has at least as many rows as the per-game one; its player ids
are distinct; and row i of both tables carries the same player id, for every
per-game row i. A concrete case shows the two joins differ when the order
differs.

Files: `wrappers.dfy` (Option), `seq_facts.dfy` (multiset facts),
`text.dfy` (split, join, decimal rendering, `s[-2:]`), `run_config.dfy`,
`tables.dfy`, `merge.dfy`, `ranking.dfy`, `analysis.dfy`.

## Model

| member | source | states |
|---|---|---|
| Text.Join | nba.py:73 | `sep.join(parts)` of no parts is "", it starts with the first part, and for separator-free parts it holds exactly one separator fewer than there are parts |
| Text.Split | nba.py:106 | `str.split(",")` always gives at least one piece, no piece holds the separator, and there is one piece more than there are separators |
| Text.JoinSplit | nba.py:106 | joining the pieces of a split with the separator gives back the original string |
| Text.SplitJoin | nba.py:104-106 | splitting a join of one or more separator-free names gives back exactly those names, in order |
| Text.NatToDecimal | nba.py:16 | `str(n)` for n >= 0 is a non-empty run of digits with no leading zero, and is one character long exactly for n < 10 |
| Text.IntToDecimal | nba.py:16 | `str(i)` is "0" for 0, digits without a leading zero for i > 0, and a minus sign followed by digits without a leading zero for i < 0 |
| Text.DecimalRoundTrip | nba.py:16 | reading back the digits of `str(n)` gives n |
| Text.IntRoundTrip | nba.py:16 | reading back `str(i)`, sign included, gives i for every integer |
| Text.LastTwoDigits | nba.py:16 | for n >= 10, the last two characters of `str(n)` are the tens digit and the units digit of n |
| Text.LastTwo | nba.py:16 | `s[-2:]` is a suffix of s, two characters long, or all of s when s is shorter |
| RunConfig.SeasonId | nba.py:16 | the season id is `str(year)`, then a dash, then the last two characters of `str(year + 1)` |
| RunConfig.SeasonIdTwoDigitSuffix | nba.py:16 | from year 9 on, the season suffix is the two low decimal digits of year + 1 (2099 gives "2099-00") |
| RunConfig.SeasonIdOneDigitSuffix | nba.py:16 | for years 0 to 8 the successor has one digit, and the suffix is that single character |
| RunConfig.SeasonId2020 | nba.py:16 | year 2020 gives "2020-21" |
| RunConfig.YearOfSeason | nba.py:16 | a year is read back exactly when the id starts with a non-empty run of digits followed by a dash, and it is the decimal value of that run |
| RunConfig.SeasonIdRoundTrip | nba.py:16 | for every non-negative year, reading the digits in front of the first dash of its season id gives the year back |
| RunConfig.SeasonIdInjective | nba.py:16 | two different non-negative years never share a season id |
| RunConfig.DefaultColumnsAreNames | nba.py:26 | the nine default columns contain neither "," nor "-" |
| RunConfig.NewConfig | nba.py:14-26 | an absent date bound becomes "" and a given one is kept; an absent column list becomes FG_PCT, FG3M, FT_PCT, REB, AST, TOV, STL, BLK, PTS in that order, and a given list is kept |
| RunConfig.ExplicitDefaultsChangeNothing | nba.py:19-26 | passing "" for both dates and the default list explicitly gives the same configuration as passing nothing |
| RunConfig.NewConfigKeepsGivenValues | nba.py:19-26 | rebuilding a configuration from its own dates and columns gives it back unchanged |
| RunConfig.ParseArguments | nba.py:99-106 | both date bounds are present exactly when there are at least four arguments, and they are argv[2] and argv[3]; the columns are present exactly when there are at least five, and they are comma-free names that join back to argv[4] |
| RunConfig.ConfigFromCommandLine | nba.py:98-108 | with fewer than four arguments the dates are empty; with fewer than five the columns are the defaults; otherwise the dates are argv[2] and argv[3], and the columns are comma-free names that join back to argv[4] |
| RunConfig.CommandLineColumnsRoundTrip | nba.py:104-106 | writing comma-free names joined by "," as argv[4] selects exactly those names |
| RunConfig.DefaultColumnsOnCommandLine | nba.py:23-26 | with the year rendered as argv[1], naming the default columns on the command line configures the same run as naming none |
| RunConfig.DateSuffix | nba.py:75-79 | an empty bound adds nothing, and a non-empty one adds "_" followed by the bound |
| RunConfig.FileName | nba.py:73-81 | the file name starts with "overall_", then the season id, then "_", and is the stem followed by ".csv" |
| RunConfig.Stem | nba.py:73-80 | the name before ".csv" is appended is "overall_", then the season id, then "_", then the columns joined by "-", then "_" and the lower bound if it is non-empty, then "_" and the upper bound if it is non-empty |
| RunConfig.FileNameEndsWithUpperBound | nba.py:78-81 | a non-empty upper bound, behind "_", is the last thing before ".csv" |
| RunConfig.FileNameEndsWithLowerBound | nba.py:75-81 | a non-empty lower bound with an empty upper bound is, behind "_", the last thing before ".csv" |
| RunConfig.FileNameWithBothBounds | nba.py:75-81 | with both bounds given, "_" + lower bound + "_" + upper bound ends the stem, lower bound first |
| RunConfig.FileNameWithoutBounds | nba.py:73-81 | with both bounds empty, the stem is "overall_", the season id, "_" and the columns joined by "-", and nothing more |
| RunConfig.FileNameRecoversColumns | nba.py:73-81 | for every date window, the date suffixes stand right before ".csv", and the text between the season id's "_" and them splits on "-" back into the selected columns, when they contain no "-" |
| RunConfig.OneSidedWindowsShareAFileName | nba.py:75-79 | a window with only a lower bound d and one with only an upper bound d get the same file name |
| RunConfig.FileNameWithoutWindow | nba.py:73-81 | year 2020 with columns PTS, TOV and no dates gives "overall_2020-21_PTS-TOV.csv" |
| RunConfig.FileNameWithWindow | nba.py:73-81 | year 2021 with both bounds gives "overall_2021-22_PTS-TOV_2021-01-01_2021-02-01.csv" |
| Tables.SumColumns | nba.py:63 | the row sum over no columns is 0, over one column is that column's value, and is non-negative when every selected value is |
| Tables.SumColumnsAppend | nba.py:63 | the row sum over two lists of columns put together is the sum of the two row sums |
| Tables.SumColumnsPermutation | nba.py:63 | the row sum depends only on which columns are selected, with repetition, not on their order |
| Tables.Composite | nba.py:63-64 | the composite fails exactly when a selected column is missing; otherwise it keeps every row unchanged and in order, and adds the sum of that row's raw selected values |
| Tables.CompositeIgnoresColumnOrder | nba.py:63-64 | listing the same columns in another order gives the same scored table |
| Tables.CompositeOfMoreColumns | nba.py:63-64 | selecting extra columns raises each row's composite by exactly the row's sum over those columns |
| Merge.Per36At | nba.py:66 | the per-36 partner of position i is present exactly when the per-36 table has a row i, and it is that row's score |
| Merge.JoinByPosition | nba.py:66-67 | the join fails exactly when AGE, GP or MIN is missing. Otherwise there is one row per per-game row, in per-game order. Row i takes name, AGE, GP, MIN and the per-game score from per-game row i, and the per-36 score from per-36 row i, missing when there is no such row. No player id is kept |
| Merge.PositionalJoinIsIdJoinWhenAligned | nba.py:66 | when the per-36 table has at least as many rows, its ids are distinct, and every per-game row i has the same player id as per-36 row i, the positional join equals a join on player id |
| Merge.MisalignedJoinPairsOtherPlayer | nba.py:66 | when the per-36 table lists the players in another order, per-game player A receives player B's per-36 score, which the id join would not give |
| Merge.AddDiff | nba.py:68 | every row is kept unchanged. The difference is present exactly when the per-36 score is, and the per-game score plus the difference equals the per-36 score |
| Merge.Diff | nba.py:68 | a row's difference is missing exactly when its per-36 score is, and otherwise it is the amount that takes the per-game score to the per-36 score |
| Ranking.RanksAtLeastTotal | nba.py:83 | of any two rows, one may be listed before the other |
| Ranking.RanksAtLeastTransitive | nba.py:83 | the sort order is transitive |
| Ranking.Insert | nba.py:83 | inserting a row into a ranked sequence gives a ranked sequence with the same rows plus the new one |
| Ranking.Rank | nba.py:83 | the output rearranges the input rows. Per-game scores never increase along it; among equal per-game scores, per-36 scores never increase and missing ones come last |
| Ranking.RankedListsHigherPerGameFirst | nba.py:83 | in ranked output, a row with a strictly higher per-game score is listed before a row with a lower one |
| Ranking.RankKeepsRanked | nba.py:83 | ranking rows that are already in ranked order leaves them as they are |
| Ranking.RankIdempotent | nba.py:83 | ranking twice gives the same result as ranking once |
| Analysis.Analyze | nba.py:47-83 | the run produces output exactly when every selected column is in both downloads and AGE, GP and MIN are in the per-game one. The file is named from the configuration, has one row per per-game row, is ranked, and is a rearrangement of the rows computed directly from the two downloads |
| Analysis.AnalyzeWritesOnlyExpectedRows | nba.py:63-83 | every written row is the expected row of some per-game row: its name, AGE, GP and MIN, its raw column sum, the same sum for the per-36 row at the same position, and their difference |
| Analysis.AnalyzeWritesEveryRow | nba.py:63-83 | the expected row of every per-game row is written |
| Analysis.ExampleComposites | nba.py:63-64 | with PTS 10 and 20 and TOV 2 and 4, the per-game composites are 12 and 24; raw turnovers are added, not subtracted |
| Analysis.ExampleRanksBFirst | nba.py:63-83 | in that example player B, with composite 24, is listed first, and the file is "overall_2020-21_PTS-TOV.csv" |

## Left out

- The download (`download_stats`, nba.py:34-45) is HTTP, JSON decoding and a remote service. The two tables are inputs of `Analysis.Analyze`.
- CSV writing (`write_csv`, and `to_csv` at nba.py:83) is file output. The model stops at the file name and the ranked rows.
- The per-column z-scores (nba.py:54-61) are left out. They need a population standard deviation, which needs a floating-point square root, and their division by zero is unguarded. Line 63 sums the raw selected columns, and line 66 projects the `_ZSCORE` columns away. For ordinary column lists their only effect is a `KeyError` for a missing selected column, and `Tables.Composite` raises that too.
- The year parsing `int(sys.argv[1])`, its "Invalid year" message and `sys.exit` (nba.py:92-96) are a Python built-in and process control. The year is taken as an integer. A missing argv[1] raises an uncaught `IndexError`, and that is not modelled either.
- Floating-point rounding and NaN inside the downloaded data are not modelled. Values are exact reals. NaN appears only as a per-36 score that has no partner row.
- AGE, GP and MIN are held as reals, like every numeric column. In the source GP is an integer column.
- Selecting a non-numeric column (PLAYER_NAME) as a statistic is not modelled. The player id and name sit outside the numeric column map.
- Analysis.Analyze: a column list that names the z-score column of an earlier selected column, such as `PTS,PTS_ZSCORE`, is not modelled faithfully. The loop at nba.py:55-61 creates `PTS_ZSCORE` before line 63 reads it, so the source sums PTS and its z-score and writes a file. The model has no z-scores, treats `PTS_ZSCORE` as a missing column and returns no output.
- Merge.JoinByPosition: a download that lacks PLAYER_ID or PLAYER_NAME (per-game) or PLAYER_ID (per-36) makes nba.py:66 raise `KeyError`. The model's rows always carry an id and a name, so this error path cannot arise in it.
- Ranking.Rank: it states no order among rows whose per-game and per-36 scores are both equal. pandas does not promise one. The insertion sort used here happens to be stable, but that is not stated.


=== FILE: analysis.dfy ===
/** `analyze_stats` followed by `save_analysis` (nba.py lines 47-83) with the
    two downloads given as tables: composite scores for both tables, the
    positional join, the difference column, the ranking, and the output
    file name. The per-column z-scores of lines 54-61 are left out. The
    composite reads them only when a selected column is itself the z-score
    column of an earlier selected one (`PTS,PTS_ZSCORE`); the model treats
    that column as missing. */
module Analysis {
  import opened Wrappers
  import opened RunConfig
  import opened Tables
  import opened Merge
  import opened Ranking
  import opened SeqFacts

  /** What the run writes: the file name and its rows, in file order. */
  datatype Report = Report(fileName: string, rows: seq<OutputRow>)

  /** The run ends without output when a selected column is missing from
      either download or AGE, GP or MIN is missing from the per-game one. */
  predicate CanAnalyze(cfg: Config, perGame: Table, per36: Table)
  {
    && HasColumns(perGame.columns, cfg.cols)
    && HasColumns(per36.columns, cfg.cols)
    && KeptColumns <= perGame.columns
  }

  /** The output row for per-game row `i`, written directly from the two
      downloads: its name, age, games and minutes, the sum of its selected
      columns, the same sum for per-36 row `i` if there is one, and their
      difference. */
  function ExpectedRow(cfg: Config, perGame: Table, per36: Table, i: int): OutputRow
    requires perGame.WellFormed() && per36.WellFormed() && CanAnalyze(cfg, perGame, per36)
    requires 0 <= i < |perGame.rows|
  {
    var g := perGame.rows[i];
    var pergame := SumColumns(g.values, cfg.cols);
    var per36score := if i < |per36.rows| then Some(SumColumns(per36.rows[i].values, cfg.cols)) else None;
    var diff := if i < |per36.rows| then Some(per36score.value - pergame) else None;
    OutputRow(JoinedRow(g.playerName, g.values["AGE"], g.values["GP"], g.values["MIN"], pergame, per36score), diff)
  }

  function ExpectedRows(cfg: Config, perGame: Table, per36: Table): seq<OutputRow>
    requires perGame.WellFormed() && per36.WellFormed() && CanAnalyze(cfg, perGame, per36)
  {
    seq(|perGame.rows|, i requires 0 <= i < |perGame.rows| => ExpectedRow(cfg, perGame, per36, i))
  }

  /** The whole deterministic pipeline. On success the file is named from the
      configuration, holds one row per per-game row (the expected rows, in
      some order), and is ranked. */
  function Analyze(cfg: Config, perGame: Table, per36: Table): (r: Option<Report>)
    requires perGame.WellFormed() && per36.WellFormed()
    ensures r.Some? <==> CanAnalyze(cfg, perGame, per36)
    ensures r.Some? ==> r.value.fileName == FileName(cfg)
    ensures r.Some? ==> |r.value.rows| == |perGame.rows|
    ensures r.Some? ==> multiset(r.value.rows) == multiset(ExpectedRows(cfg, perGame, per36))
    ensures r.Some? ==> Ranked(r.value.rows)
  {
    var pg := Composite(perGame, cfg.cols);
    var p36 := Composite(per36, cfg.cols);
    if pg.None? || p36.None? then None
    else
      var joined := JoinByPosition(pg.value, p36.value);
      if joined.None? then None
      else
        var rows := AddDiff(joined.value);
        assert rows == ExpectedRows(cfg, perGame, per36);
        Some(Report(FileName(cfg), Rank(rows)))
  }

  /** Every written row is the expected row of some per-game row. */
  lemma AnalyzeWritesOnlyExpectedRows(cfg: Config, perGame: Table, per36: Table, k: int) returns (i: int)
    requires perGame.WellFormed() && per36.WellFormed()
    requires CanAnalyze(cfg, perGame, per36)
    requires 0 <= k < |perGame.rows|
    ensures 0 <= i < |perGame.rows|
    ensures Analyze(cfg, perGame, per36).value.rows[k] == ExpectedRow(cfg, perGame, per36, i)
  {
    var rows := Analyze(cfg, perGame, per36).value.rows;
    var expected := ExpectedRows(cfg, perGame, per36);
    i := PermutationIndex(rows, expected, k);
  }

  /** The expected row of every per-game row is written. */
  lemma AnalyzeWritesEveryRow(cfg: Config, perGame: Table, per36: Table, i: int) returns (k: int)
    requires perGame.WellFormed() && per36.WellFormed()
    requires CanAnalyze(cfg, perGame, per36)
    requires 0 <= i < |perGame.rows|
    ensures 0 <= k < |Analyze(cfg, perGame, per36).value.rows|
    ensures Analyze(cfg, perGame, per36).value.rows[k] == ExpectedRow(cfg, perGame, per36, i)
  {
    var rows := Analyze(cfg, perGame, per36).value.rows;
    var expected := ExpectedRows(cfg, perGame, per36);
    k := PermutationIndex(expected, rows, i);
  }

  /** A two-player example, A and B: per-game points 10 and 20 with turnovers 2 and 4;
      per-36 points doubled. */
  function ExampleValues(pts: real, tov: real): map<string, real>
  {
    map["AGE" := 25.0, "GP" := 10.0, "MIN" := 30.0, "PTS" := pts, "TOV" := tov]
  }

  const ExampleColumns: set<string> := {"AGE", "GP", "MIN", "PTS", "TOV"}

  function ExamplePerGame(): Table
  {
    Table(ExampleColumns, [PlayerRow(1, "A", ExampleValues(10.0, 2.0)), PlayerRow(2, "B", ExampleValues(20.0, 4.0))])
  }

  function ExamplePer36(): Table
  {
    Table(ExampleColumns, [PlayerRow(1, "A", ExampleValues(20.0, 2.0)), PlayerRow(2, "B", ExampleValues(40.0, 4.0))])
  }

  function ExampleConfig(): Config
  {
    NewConfig(2020, None, None, Some(["PTS", "TOV"]))
  }

  lemma ExampleCanAnalyze()
    ensures ExamplePerGame().WellFormed() && ExamplePer36().WellFormed()
    ensures CanAnalyze(ExampleConfig(), ExamplePerGame(), ExamplePer36())
  {
    assert ExampleValues(10.0, 2.0).Keys == ExampleColumns;
    assert ExampleValues(20.0, 2.0).Keys == ExampleColumns;
    assert ExampleValues(20.0, 4.0).Keys == ExampleColumns;
    assert ExampleValues(40.0, 4.0).Keys == ExampleColumns;
  }

  /** The raw sums: A has 10 + 2 = 12, B has 20 + 4 = 24. */
  lemma ExampleComposites()
    ensures ExamplePerGame().WellFormed() && ExamplePer36().WellFormed()
    ensures CanAnalyze(ExampleConfig(), ExamplePerGame(), ExamplePer36())
    ensures ExpectedRow(ExampleConfig(), ExamplePerGame(), ExamplePer36(), 0).joined.zscorePerGame == 12.0
    ensures ExpectedRow(ExampleConfig(), ExamplePerGame(), ExamplePer36(), 1).joined.zscorePerGame == 24.0
    ensures ExpectedRow(ExampleConfig(), ExamplePerGame(), ExamplePer36(), 1).joined.playerName == "B"
  {
    ExampleCanAnalyze();
    var cols := ExampleConfig().cols;
    assert cols == ["PTS", "TOV"];
    assert cols[1..] == ["TOV"] && cols[1..][1..] == [];
    assert SumColumns(ExampleValues(10.0, 2.0), cols) == 12.0;
    assert SumColumns(ExampleValues(20.0, 4.0), cols) == 24.0;
  }

  /** B has the higher per-game composite (24 against 12) and is listed first;
      the file is named from the season and the two columns. */
  lemma ExampleRanksBFirst()
    ensures ExamplePerGame().WellFormed() && ExamplePer36().WellFormed()
    ensures var r := Analyze(ExampleConfig(), ExamplePerGame(), ExamplePer36());
            && r.Some?
            && r.value.fileName == "overall_" + "2020-21" + "_" + "PTS-TOV" + ".csv"
            && |r.value.rows| == 2
            && r.value.rows[0].joined.playerName == "B"
            && r.value.rows[0].joined.zscorePerGame == 24.0
  {
    var cfg, pg, p36 := ExampleConfig(), ExamplePerGame(), ExamplePer36();
    ExampleComposites();
    FileNameWithoutWindow();
    var rows := Analyze(cfg, pg, p36).value.rows;
    var k := AnalyzeWritesEveryRow(cfg, pg, p36, 1);
    var m := AnalyzeWritesEveryRow(cfg, pg, p36, 0);
    RankedListsHigherPerGameFirst(rows, k, m);
  }
}

=== FILE: merge.dfy ===
/** The output table of `analyze_stats` (nba.py lines 66-68): the per-game
    rows joined with the per-36 composite scores, player ids dropped, and the
    difference of the two scores added. */
module Merge {
  import opened Wrappers
  import opened Tables

  /** The per-game columns the output keeps besides the player name. */
  const KeptColumns: set<string> := {"AGE", "GP", "MIN"}

  /** A row after the join and the drop of both PLAYER_ID columns:
      PLAYER_NAME, AGE, GP, MIN, ZSCORE_PERGAME, ZSCORE_PER36. The per-36
      score is None where the per-36 table has no partner row (NaN). */
  datatype JoinedRow = JoinedRow(playerName: string, age: real, gamesPlayed: real, minutes: real,
                                 zscorePerGame: real, zscorePer36: Option<real>)

  /** A joined row with its ZSCORE_DIFF column (None where the per-36 score
      is missing, as NaN minus a number is NaN). */
  datatype OutputRow = OutputRow(joined: JoinedRow, zscoreDiff: Option<real>)

  /** The joined row for per-game row `g` and per-36 score `per36`. */
  function JoinRow(g: ScoredRow, per36: Option<real>): JoinedRow
    requires KeptColumns <= g.row.values.Keys
  {
    JoinedRow(g.row.playerName, g.row.values["AGE"], g.row.values["GP"], g.row.values["MIN"], g.zscore, per36)
  }

  /** The per-36 score at position `i`, if the per-36 table has that row. */
  function Per36At(p36: ScoredTable, i: int): (r: Option<real>)
    requires 0 <= i
    ensures r.Some? <==> i < |p36.rows|
    ensures r.Some? ==> r.value == p36.rows[i].zscore
  {
    if i < |p36.rows| then Some(p36.rows[i].zscore) else None
  }

  /** `per_game[...].join(per_36[...])`: a left join on the row index, so
      per-game row i meets per-36 row i whoever its player is. Absent (a
      KeyError) when the per-game table lacks AGE, GP or MIN. */
  function JoinByPosition(pg: ScoredTable, p36: ScoredTable): (r: Option<seq<JoinedRow>>)
    requires pg.WellFormed()
    ensures r.Some? <==> KeptColumns <= pg.columns
    ensures r.Some? ==> |r.value| == |pg.rows|
    ensures r.Some? ==> forall i :: 0 <= i < |pg.rows| ==>
              && r.value[i].playerName == pg.rows[i].row.playerName
              && r.value[i].age == pg.rows[i].row.values["AGE"]
              && r.value[i].gamesPlayed == pg.rows[i].row.values["GP"]
              && r.value[i].minutes == pg.rows[i].row.values["MIN"]
              && r.value[i].zscorePerGame == pg.rows[i].zscore
              && (r.value[i].zscorePer36.Some? <==> i < |p36.rows|)
              && (i < |p36.rows| ==> r.value[i].zscorePer36.value == p36.rows[i].zscore)
  {
    if !(KeptColumns <= pg.columns) then None
    else Some(seq(|pg.rows|, i requires 0 <= i < |pg.rows| => JoinRow(pg.rows[i], Per36At(p36, i))))
  }

  // ---------------------------------------------------------------------------
  // Reference: a join on the player id
  // ---------------------------------------------------------------------------

  /** The per-36 score of the first per-36 row of player `id`. */
  function ScoreOfPlayer(rows: seq<ScoredRow>, id: int): (r: Option<real>)
    ensures r.Some? <==> exists k :: 0 <= k < |rows| && rows[k].row.playerId == id
  {
    if |rows| == 0 then None
    else if rows[0].row.playerId == id then Some(rows[0].zscore)
    else ScoreOfPlayer(rows[1..], id)
  }

  /** With distinct ids, a player's score is the score of the row that has it. */
  lemma {:induction false} ScoreOfDistinctPlayer(rows: seq<ScoredRow>, k: int)
    requires 0 <= k < |rows|
    requires forall i, j :: 0 <= i < j < |rows| ==> rows[i].row.playerId != rows[j].row.playerId
    ensures ScoreOfPlayer(rows, rows[k].row.playerId) == Some(rows[k].zscore)
    decreases k
  {
    if k > 0 {
      assert rows[0].row.playerId != rows[k].row.playerId;
      ScoreOfDistinctPlayer(rows[1..], k - 1);
      assert rows[1..][k - 1] == rows[k];
    }
  }

  /** A left join that pairs each per-game row with the per-36 row of the
      same player, wherever that row is. */
  function JoinByPlayerId(pg: ScoredTable, p36: ScoredTable): Option<seq<JoinedRow>>
    requires pg.WellFormed()
  {
    if !(KeptColumns <= pg.columns) then None
    else Some(seq(|pg.rows|, i requires 0 <= i < |pg.rows| =>
                    JoinRow(pg.rows[i], ScoreOfPlayer(p36.rows, pg.rows[i].row.playerId))))
  }

  /** When the two downloads list the same players in the same order, the
      positional join is the join on player id. */
  lemma PositionalJoinIsIdJoinWhenAligned(pg: ScoredTable, p36: ScoredTable)
    requires pg.WellFormed()
    requires |pg.rows| <= |p36.rows|
    requires forall i :: 0 <= i < |pg.rows| ==> pg.rows[i].row.playerId == p36.rows[i].row.playerId
    requires forall i, j :: 0 <= i < j < |p36.rows| ==> p36.rows[i].row.playerId != p36.rows[j].row.playerId
    ensures JoinByPosition(pg, p36) == JoinByPlayerId(pg, p36)
  {
    if KeptColumns <= pg.columns {
      forall i | 0 <= i < |pg.rows|
        ensures ScoreOfPlayer(p36.rows, pg.rows[i].row.playerId) == Per36At(p36, i)
      {
        ScoreOfDistinctPlayer(p36.rows, i);
      }
      assert JoinByPosition(pg, p36).value == JoinByPlayerId(pg, p36).value;
    }
  }

  /** Per-game player 1 then 2 with composites 10 and 20. */
  function SamplePerGame(): ScoredTable
  {
    var v := map["AGE" := 25.0, "GP" := 10.0, "MIN" := 30.0];
    ScoredTable(KeptColumns, [ScoredRow(PlayerRow(1, "A", v), 10.0), ScoredRow(PlayerRow(2, "B", v), 20.0)])
  }

  /** Per-36 listing the same two players in the other order. */
  function SamplePer36(): ScoredTable
  {
    var v := map["AGE" := 25.0, "GP" := 10.0, "MIN" := 30.0];
    ScoredTable(KeptColumns, [ScoredRow(PlayerRow(2, "B", v), 40.0), ScoredRow(PlayerRow(1, "A", v), 30.0)])
  }

  /** When the per-36 download lists players in another order, the positional
      join gives player A the per-36 score of player B. */
  lemma MisalignedJoinPairsOtherPlayer()
    ensures SamplePerGame().WellFormed()
    ensures JoinByPosition(SamplePerGame(), SamplePer36()).value[0].playerName == "A"
    ensures JoinByPosition(SamplePerGame(), SamplePer36()).value[0].zscorePer36 == Some(40.0)
    ensures JoinByPlayerId(SamplePerGame(), SamplePer36()).value[0].zscorePer36 == Some(30.0)
  {
    var pg := SamplePerGame();
    assert pg.rows[0].row.values.Keys == KeptColumns;
    assert pg.rows[1].row.values.Keys == KeptColumns;
    assert SamplePer36().rows[1].row.playerId == 1;
  }

  // ---------------------------------------------------------------------------
  // Difference column
  // ---------------------------------------------------------------------------

  /** `output_df["ZSCORE_DIFF"] = ZSCORE_PER36 - ZSCORE_PERGAME`: every row
      is kept as it was and gains the amount that takes its per-game score to
      its per-36 score; missing where the per-36 score is missing. */
  function AddDiff(rows: seq<JoinedRow>): (r: seq<OutputRow>)
    ensures |r| == |rows|
    ensures forall i :: 0 <= i < |rows| ==> r[i].joined == rows[i]
    ensures forall i :: 0 <= i < |rows| ==>
              (r[i].zscoreDiff.Some? <==> rows[i].zscorePer36.Some?)
    ensures forall i :: 0 <= i < |rows| && rows[i].zscorePer36.Some? ==>
              rows[i].zscorePerGame + r[i].zscoreDiff.value == rows[i].zscorePer36.value
  {
    seq(|rows|, i requires 0 <= i < |rows| => OutputRow(rows[i], Diff(rows[i])))
  }

  /** One row's difference: the amount that takes the per-game score to the
      per-36 score, missing where the per-36 score is missing (NaN minus a
      number is NaN). */
  function Diff(j: JoinedRow): (r: Option<real>)
    ensures r.Some? <==> j.zscorePer36.Some?
    ensures r.Some? ==> j.zscorePerGame + r.value == j.zscorePer36.value
  {
    match j.zscorePer36
    case Some(p) => Some(p - j.zscorePerGame)
    case None => None
  }
}

=== FILE: ranking.dfy ===
/** The order of the output file (nba.py line 83): ZSCORE_PERGAME descending,
    ties broken by ZSCORE_PER36 descending. As in pandas' default
    `na_position="last"`, a missing per-36 score sorts after every present
    one among rows with equal per-game scores. */
module Ranking {
  import opened Wrappers
  import opened Merge

  /** The per-36 sort key of `a` comes no later than that of `b`. */
  predicate Per36AtLeast(a: Option<real>, b: Option<real>)
  {
    match (a, b)
    case (Some(x), Some(y)) => x >= y
    case (Some(_), None) => true
    case (None, None) => true
    case (None, Some(_)) => false
  }

  /** Row `a` may be listed before row `b`. */
  predicate RanksAtLeast(a: OutputRow, b: OutputRow)
  {
    || a.joined.zscorePerGame > b.joined.zscorePerGame
    || (a.joined.zscorePerGame == b.joined.zscorePerGame
        && Per36AtLeast(a.joined.zscorePer36, b.joined.zscorePer36))
  }

  /** Every row ranks at least as high as every later row. */
  predicate Ranked(s: seq<OutputRow>)
  {
    forall i, j :: 0 <= i < j < |s| ==> RanksAtLeast(s[i], s[j])
  }

  lemma RanksAtLeastTotal(a: OutputRow, b: OutputRow)
    ensures RanksAtLeast(a, b) || RanksAtLeast(b, a)
  {
  }

  lemma RanksAtLeastTransitive(a: OutputRow, b: OutputRow, c: OutputRow)
    requires RanksAtLeast(a, b) && RanksAtLeast(b, c)
    ensures RanksAtLeast(a, c)
  {
  }

  /** A row ranking at least as high as every row of a ranked sequence
      can be put in front of it. */
  lemma ConsRanked(y: OutputRow, s: seq<OutputRow>)
    requires Ranked(s)
    requires forall j :: 0 <= j < |s| ==> RanksAtLeast(y, s[j])
    ensures Ranked([y] + s)
  {
    forall i, j | 0 <= i < j < |[y] + s|
      ensures RanksAtLeast(([y] + s)[i], ([y] + s)[j])
    {
      if i > 0 {
        assert ([y] + s)[i] == s[i - 1];
      }
      assert ([y] + s)[j] == s[j - 1];
    }
  }

  /** The rest of a ranked sequence is ranked, and its first row ranks at
      least as high as all of the rest. */
  lemma HeadRanksHighest(s: seq<OutputRow>)
    requires Ranked(s) && |s| > 0
    ensures Ranked(s[1..])
    ensures forall j :: 0 <= j < |s[1..]| ==> RanksAtLeast(s[0], s[1..][j])
  {
    forall i, j | 0 <= i < j < |s[1..]|
      ensures RanksAtLeast(s[1..][i], s[1..][j])
    {
      assert s[1..][i] == s[i + 1] && s[1..][j] == s[j + 1];
    }
    forall j | 0 <= j < |s[1..]|
      ensures RanksAtLeast(s[0], s[1..][j])
    {
      assert s[1..][j] == s[j + 1];
    }
  }

  /** A row ranking at least as high as every row of `t` and as `x` ranks at
      least as high as every row of a rearrangement of `t` with `x` added. */
  lemma AboveAllMembers(y: OutputRow, t: seq<OutputRow>, x: OutputRow, r: seq<OutputRow>)
    requires forall j :: 0 <= j < |t| ==> RanksAtLeast(y, t[j])
    requires RanksAtLeast(y, x)
    requires multiset(r) == multiset(t) + multiset{x}
    ensures forall j :: 0 <= j < |r| ==> RanksAtLeast(y, r[j])
  {
    forall j | 0 <= j < |r|
      ensures RanksAtLeast(y, r[j])
    {
      assert r[j] in multiset(r);
      if r[j] != x {
        assert r[j] in multiset(t);
        assert r[j] in t;
      }
    }
  }

  /** A row ranking at least as high as the first row of a ranked sequence
      can be put in front of it. */
  lemma InsertInFront(x: OutputRow, s: seq<OutputRow>)
    requires Ranked(s) && |s| > 0
    requires RanksAtLeast(x, s[0])
    ensures Ranked([x] + s)
  {
    HeadRanksHighest(s);
    forall j | 0 <= j < |s[1..]| ensures RanksAtLeast(x, s[1..][j]) {
      RanksAtLeastTransitive(x, s[0], s[1..][j]);
    }
    assert s == [s[0]] + s[1..];
    AboveAllMembers(x, s[1..], s[0], s);
    ConsRanked(x, s);
  }

  /** A row ranking below the first row of a ranked sequence goes into the
      rest, behind that first row. */
  lemma InsertBehind(x: OutputRow, s: seq<OutputRow>, rest: seq<OutputRow>)
    requires Ranked(s) && |s| > 0
    requires !RanksAtLeast(x, s[0])
    requires Ranked(rest) && multiset(rest) == multiset(s[1..]) + multiset{x}
    ensures Ranked([s[0]] + rest)
    ensures multiset([s[0]] + rest) == multiset(s) + multiset{x}
  {
    HeadRanksHighest(s);
    RanksAtLeastTotal(x, s[0]);
    AboveAllMembers(s[0], s[1..], x, rest);
    ConsRanked(s[0], rest);
    assert s == [s[0]] + s[1..];
  }

  /** Puts `x` in front of the first row it ranks at least as high as. */
  function Insert(x: OutputRow, s: seq<OutputRow>): (r: seq<OutputRow>)
    requires Ranked(s)
    ensures Ranked(r)
    ensures multiset(r) == multiset(s) + multiset{x}
    decreases |s|
  {
    if |s| == 0 then [x]
    else if RanksAtLeast(x, s[0]) then
      InsertInFront(x, s);
      [x] + s
    else
      HeadRanksHighest(s);
      var rest := Insert(x, s[1..]);
      InsertBehind(x, s, rest);
      [s[0]] + rest
  }

  /** `df.sort_values(["ZSCORE_PERGAME", "ZSCORE_PER36"], ascending=[False, False])`:
      the same rows, per-game scores non-increasing, and among equal per-game
      scores the per-36 scores non-increasing with missing ones last. */
  function Rank(s: seq<OutputRow>): (r: seq<OutputRow>)
    ensures multiset(r) == multiset(s)
    ensures |r| == |s|
    ensures Ranked(r)
    ensures forall i, j :: 0 <= i < j < |r| ==>
              r[i].joined.zscorePerGame >= r[j].joined.zscorePerGame
    ensures forall i, j :: 0 <= i < j < |r| && r[i].joined.zscorePerGame == r[j].joined.zscorePerGame ==>
              Per36AtLeast(r[i].joined.zscorePer36, r[j].joined.zscorePer36)
    decreases |s|
  {
    if |s| == 0 then []
    else
      assert s == [s[0]] + s[1..];
      var r := Insert(s[0], Rank(s[1..]));
      assert |r| == |multiset(r)|;
      r
  }

  /** A row with a strictly higher per-game score is listed earlier. */
  lemma RankedListsHigherPerGameFirst(s: seq<OutputRow>, i: int, j: int)
    requires Ranked(s)
    requires 0 <= i < |s| && 0 <= j < |s|
    requires s[i].joined.zscorePerGame > s[j].joined.zscorePerGame
    ensures i < j
  {
    assert forall a, b :: 0 <= a < b < |s| ==> s[a].joined.zscorePerGame >= s[b].joined.zscorePerGame;
  }

  /** Inserting a row that ranks at least as high as all others puts it first. */
  lemma InsertHighest(x: OutputRow, s: seq<OutputRow>)
    requires Ranked(s)
    requires forall j :: 0 <= j < |s| ==> RanksAtLeast(x, s[j])
    ensures Insert(x, s) == [x] + s
  {
  }

  /** Ranking an already ranked sequence leaves it as it is, so ranking twice
      is ranking once. */
  lemma {:induction false} RankKeepsRanked(s: seq<OutputRow>)
    requires Ranked(s)
    ensures Rank(s) == s
    decreases |s|
  {
    if |s| > 0 {
      HeadRanksHighest(s);
      RankKeepsRanked(s[1..]);
      InsertHighest(s[0], s[1..]);
      assert s == [s[0]] + s[1..];
    }
  }

  lemma RankIdempotent(s: seq<OutputRow>)
    ensures Rank(Rank(s)) == Rank(s)
  {
    RankKeepsRanked(Rank(s));
  }
}

=== FILE: run_config.dfy ===
/** The run configuration of `NbaStatsParser` (nba.py): the season id built
    from the year, the optional date window, the selected statistical
    columns, the command-line rules that fill them, and the name of the
    output file. */
module RunConfig {
  import opened Wrappers
  import opened Text

  /** The state `NbaStatsParser.__init__` stores: season id, the two date
      bounds ("" when absent) and the selected statistical columns. */
  datatype Config = Config(seasonId: string, dateFrom: string, dateTo: string, cols: seq<string>)

  /** What `main` hands to the constructor besides the year. */
  datatype Arguments = Arguments(dateFrom: Option<string>, dateTo: Option<string>, cols: Option<seq<string>>)

  /** The columns analysed when none are given. */
  const DefaultColumns: seq<string> :=
    ["FG_PCT", "FG3M", "FT_PCT", "REB", "AST", "TOV", "STL", "BLK", "PTS"]

  /** The default columns hold neither the "," of the command line nor the
      "-" of the file name. */
  lemma DefaultColumnsAreNames()
    ensures forall i :: 0 <= i < |DefaultColumns| ==> ',' !in DefaultColumns[i] && '-' !in DefaultColumns[i]
  {
  }

  // ---------------------------------------------------------------------------
  // Season id
  // ---------------------------------------------------------------------------

  /** The year in decimal, a dash, then the last two characters of the
      decimal rendering of the following year. */
  function SeasonId(year: int): (r: string)
    ensures |r| > |IntToDecimal(year)|
    ensures r[..|IntToDecimal(year)|] == IntToDecimal(year)
    ensures r[|IntToDecimal(year)|] == '-'
    ensures r[|IntToDecimal(year)| + 1..] == LastTwo(IntToDecimal(year + 1))
  {
    IntToDecimal(year) + "-" + LastTwo(IntToDecimal(year + 1))
  }

  /** From year 9 on, the suffix is the next year's two low decimal digits. */
  lemma SeasonIdTwoDigitSuffix(year: int)
    requires year >= 9
    ensures SeasonId(year) == NatToDecimal(year) + "-"
                              + [DigitChar(((year + 1) / 10) % 10), DigitChar((year + 1) % 10)]
  {
    var next := NatToDecimal(year + 1);
    var tail := [DigitChar(((year + 1) / 10) % 10), DigitChar((year + 1) % 10)];
    assert LastTwo(IntToDecimal(year + 1)) == tail by {
      LastTwoDigits(year + 1);
      assert IntToDecimal(year + 1) == next;
      assert |next| >= 2;
    }
    assert IntToDecimal(year) == NatToDecimal(year);
  }

  /** Before year 9 the next year has a single digit, kept on its own. */
  lemma SeasonIdOneDigitSuffix(year: int)
    requires 0 <= year < 9
    ensures SeasonId(year) == [DigitChar(year), '-', DigitChar(year + 1)]
  {
  }

  lemma Decimal2020()
    ensures NatToDecimal(2020) == "2020"
  {
    assert NatToDecimal(2) == "2";
    assert NatToDecimal(20) == NatToDecimal(2) + "0";
    assert NatToDecimal(202) == NatToDecimal(20) + "2";
    assert NatToDecimal(2020) == NatToDecimal(202) + "0";
  }

  lemma SeasonId2020()
    ensures SeasonId(2020) == "2020-21"
  {
    Decimal2020();
    SeasonIdTwoDigitSuffix(2020);
    assert DigitChar(2) == '2' && DigitChar(1) == '1';
  }

  lemma Decimal2021()
    ensures NatToDecimal(2021) == "2021"
  {
    assert NatToDecimal(2) == "2";
    assert NatToDecimal(20) == NatToDecimal(2) + "0";
    assert NatToDecimal(202) == NatToDecimal(20) + "2";
    assert NatToDecimal(2021) == NatToDecimal(202) + "1";
  }

  lemma SeasonId2021()
    ensures SeasonId(2021) == "2021-22"
  {
    Decimal2021();
    SeasonIdTwoDigitSuffix(2021);
    assert DigitChar(2) == '2';
  }

  /** Position of the first dash in `s` (|s| when there is none). */
  function FirstDash(s: string): (k: nat)
    ensures k <= |s|
    ensures forall i :: 0 <= i < k ==> s[i] != '-'
    ensures k < |s| ==> s[k] == '-'
  {
    if |s| == 0 then 0
    else if s[0] == '-' then 0
    else 1 + FirstDash(s[1..])
  }

  /** In a run of digits followed by a dash, the first dash ends the run. */
  lemma {:induction false} FirstDashAfterDigits(x: string, u: string)
    requires AllDigits(x)
    ensures FirstDash(x + "-" + u) == |x|
    decreases |x|
  {
    if |x| > 0 {
      FirstDashAfterDigits(x[1..], u);
      assert (x + "-" + u)[1..] == x[1..] + "-" + u;
    }
  }

  /** Reads the year back from a season id: the digit run in front of the
      first dash, or None when there is no such run. */
  function YearOfSeason(s: string): (r: Option<nat>)
    ensures r.Some? ==> 1 <= FirstDash(s) < |s| && IsDigit(s[0])
    ensures r.Some? ==> AllDigits(s[..FirstDash(s)]) && r.value == DecimalValue(s[..FirstDash(s)])
    ensures r.None? <==> FirstDash(s) == 0 || FirstDash(s) == |s| || !AllDigits(s[..FirstDash(s)])
  {
    var k := FirstDash(s);
    if 1 <= k < |s| && AllDigits(s[..k]) then Some(DecimalValue(s[..k])) else None
  }

  /** The year of a non-negative season can be read back from its id. */
  lemma SeasonIdRoundTrip(year: int)
    requires year >= 0
    ensures YearOfSeason(SeasonId(year)) == Some(year)
  {
    var s := SeasonId(year);
    var d := IntToDecimal(year);
    FirstDashAfterDigits(d, LastTwo(IntToDecimal(year + 1)));
    assert s[..|d|] == d;
    DecimalRoundTrip(year);
  }

  /** Distinct non-negative years give distinct season ids. */
  lemma SeasonIdInjective(a: int, b: int)
    requires a >= 0 && b >= 0 && a != b
    ensures SeasonId(a) != SeasonId(b)
  {
    SeasonIdRoundTrip(a);
    SeasonIdRoundTrip(b);
  }

  // ---------------------------------------------------------------------------
  // Construction with defaults
  // ---------------------------------------------------------------------------

  /** `NbaStatsParser.__init__`: an absent date becomes "", an absent column
      list becomes the default columns; given values are kept as they are. */
  function NewConfig(year: int, dateFrom: Option<string>, dateTo: Option<string>, cols: Option<seq<string>>): (c: Config)
    ensures c.seasonId == SeasonId(year)
    ensures dateFrom.Some? ==> c.dateFrom == dateFrom.value
    ensures dateFrom.None? ==> c.dateFrom == ""
    ensures dateTo.Some? ==> c.dateTo == dateTo.value
    ensures dateTo.None? ==> c.dateTo == ""
    ensures cols.Some? ==> c.cols == cols.value
    ensures cols.None? ==> c.cols == DefaultColumns
  {
    Config(SeasonId(year), dateFrom.GetOr(""), dateTo.GetOr(""), cols.GetOr(DefaultColumns))
  }

  /** Spelling the defaults out gives the same configuration as leaving them
      out: an explicit "" date and the default list are indistinguishable
      from absent ones. */
  lemma ExplicitDefaultsChangeNothing(year: int)
    ensures NewConfig(year, Some(""), Some(""), Some(DefaultColumns)) == NewConfig(year, None, None, None)
  {
  }

  /** Rebuilding a configuration from its own fields gives it back. */
  lemma NewConfigKeepsGivenValues(year: int, c: Config)
    requires c.seasonId == SeasonId(year)
    ensures NewConfig(year, Some(c.dateFrom), Some(c.dateTo), Some(c.cols)) == c
  {
  }

  // ---------------------------------------------------------------------------
  // Command line (argv[0] is the program, argv[1] the year)
  // ---------------------------------------------------------------------------

  /** `main`: both dates come from argv[2] and argv[3] once there are at
      least four arguments; the columns are argv[4] split on commas once
      there are at least five. */
  function ParseArguments(argv: seq<string>): (a: Arguments)
    ensures a.dateFrom.Some? <==> |argv| >= 4
    ensures a.dateTo.Some? <==> |argv| >= 4
    ensures |argv| >= 4 ==> a.dateFrom.value == argv[2] && a.dateTo.value == argv[3]
    ensures a.cols.Some? <==> |argv| >= 5
    ensures |argv| >= 5 ==> Join(a.cols.value, ',') == argv[4]
    ensures |argv| >= 5 ==> forall i :: 0 <= i < |a.cols.value| ==> ',' !in a.cols.value[i]
  {
    var dateFrom := if |argv| >= 4 then Some(argv[2]) else None;
    var dateTo := if |argv| >= 4 then Some(argv[3]) else None;
    var cols := if |argv| >= 5 then Some(Split(argv[4], ',')) else None;
    JoinSplit(if |argv| >= 5 then argv[4] else "", ',');
    Arguments(dateFrom, dateTo, cols)
  }

  /** The configuration `main` builds for an already parsed year. */
  function ConfigFromCommandLine(year: int, argv: seq<string>): (c: Config)
    ensures c.seasonId == SeasonId(year)
    ensures |argv| < 4 ==> c.dateFrom == "" && c.dateTo == ""
    ensures |argv| >= 4 ==> c.dateFrom == argv[2] && c.dateTo == argv[3]
    ensures |argv| < 5 ==> c.cols == DefaultColumns
    ensures |argv| >= 5 ==> Join(c.cols, ',') == argv[4]
    ensures |argv| >= 5 ==> forall i :: 0 <= i < |c.cols| ==> ',' !in c.cols[i]
  {
    var a := ParseArguments(argv);
    NewConfig(year, a.dateFrom, a.dateTo, a.cols)
  }

  /** Passing a comma-separated list of separator-free names on the command
      line selects exactly those names, in that order. */
  lemma {:induction false} CommandLineColumnsRoundTrip(year: int, argv: seq<string>, cols: seq<string>)
    requires |argv| >= 5
    requires |cols| >= 1
    requires forall i :: 0 <= i < |cols| ==> ',' !in cols[i]
    requires argv[4] == Join(cols, ',')
    ensures ConfigFromCommandLine(year, argv).cols == cols
  {
    SplitJoin(cols, ',');
  }

  /** Naming the default columns on the command line is the same as
      naming none. */
  lemma DefaultColumnsOnCommandLine(year: int, dateFrom: string, dateTo: string)
    ensures ConfigFromCommandLine(year, ["nba.py", IntToDecimal(year), dateFrom, dateTo, Join(DefaultColumns, ',')])
         == ConfigFromCommandLine(year, ["nba.py", IntToDecimal(year), dateFrom, dateTo])
  {
    var argv := ["nba.py", IntToDecimal(year), dateFrom, dateTo, Join(DefaultColumns, ',')];
    DefaultColumnsAreNames();
    CommandLineColumnsRoundTrip(year, argv, DefaultColumns);
  }

  // ---------------------------------------------------------------------------
  // Output file name
  // ---------------------------------------------------------------------------

  /** "_" + d for a non-empty date, nothing for an empty one. */
  function DateSuffix(d: string): (r: string)
    ensures d == "" ==> r == ""
    ensures d != "" ==> |r| == |d| + 1 && r[0] == '_' && r[1..] == d
  {
    if d == "" then "" else "_" + d
  }

  /** `save_analysis`: "overall_", the season id, "_", the columns joined by
      "-", the non-empty date bounds each behind "_", then ".csv". */
  function FileName(c: Config): (r: string)
    ensures |r| >= 13 + |c.seasonId|
    ensures r[..8] == "overall_"
    ensures r[|r| - 4..] == ".csv"
    ensures r[8..8 + |c.seasonId|] == c.seasonId
    ensures r[8 + |c.seasonId|] == '_'
    ensures r[..|r| - 4] == Stem(c)
  {
    Stem(c) + ".csv"
  }

  /** Without a date window, the text between the season id and ".csv"
      splits on "-" back into the selected columns. */
  lemma FileNameRecoversColumns(c: Config)
    requires |c.cols| >= 1
    requires forall i :: 0 <= i < |c.cols| ==> '-' !in c.cols[i]
    ensures var f := FileName(c);
            var t := DateSuffix(c.dateFrom) + DateSuffix(c.dateTo);
            && |f| >= 13 + |c.seasonId| + |t|
            && f[|f| - 4 - |t|..|f| - 4] == t
            && Split(f[9 + |c.seasonId|..|f| - 4 - |t|], '-') == c.cols
  {
    FileNameLayout(c);
    ColumnsBetween(FileName(c), "overall_" + c.seasonId + "_", c.cols, DateSuffix(c.dateFrom) + DateSuffix(c.dateTo));
  }

  /** The file name as its four pieces. */
  lemma FileNameLayout(c: Config)
    ensures FileName(c) == ("overall_" + c.seasonId + "_") + Join(c.cols, '-') + (DateSuffix(c.dateFrom) + DateSuffix(c.dateTo)) + ".csv"
  {
  }

  /** In a name laid out as p, the columns joined by "-", t and ".csv", the
      text between p and t splits back into the columns. */
  lemma ColumnsBetween(f: string, p: string, cols: seq<string>, t: string)
    requires |cols| >= 1
    requires forall i :: 0 <= i < |cols| ==> '-' !in cols[i]
    requires f == p + Join(cols, '-') + t + ".csv"
    ensures |f| >= |p| + |t| + 4
    ensures f[|f| - 4 - |t|..|f| - 4] == t
    ensures Split(f[|p|..|f| - 4 - |t|], '-') == cols
  {
    Slices(f, p, Join(cols, '-'), t);
    SplitJoin(cols, '-');
  }

  /** The pieces of p + j + t + ".csv", located from both ends. */
  lemma Slices(f: string, p: string, j: string, t: string)
    requires f == p + j + t + ".csv"
    ensures |f| == |p| + |j| + |t| + 4
    ensures f[|p|..|f| - 4 - |t|] == j
    ensures f[|f| - 4 - |t|..|f| - 4] == t
  {
    assert f[|p|..|p| + |j|] == j;
    assert f[|p| + |j|..|p| + |j| + |t|] == t;
  }

  /** The name as it stands before ".csv" is appended: "overall_", the
      season id, "_", then the columns and the date bounds. */
  function Stem(c: Config): (r: string)
    ensures |r| >= 9 + |c.seasonId|
    ensures r[..8] == "overall_"
    ensures r[8..8 + |c.seasonId|] == c.seasonId
    ensures r[8 + |c.seasonId|] == '_'
    ensures r[9 + |c.seasonId|..] == Join(c.cols, '-') + DateSuffix(c.dateFrom) + DateSuffix(c.dateTo)
  {
    var head := "overall_" + c.seasonId + "_";
    var rest := Join(c.cols, '-') + DateSuffix(c.dateFrom) + DateSuffix(c.dateTo);
    assert (head + rest)[..|head|] == head && (head + rest)[|head|..] == rest;
    head + rest
  }

  /** A given upper bound is the last thing before ".csv", behind "_". */
  lemma FileNameEndsWithUpperBound(c: Config)
    requires c.dateTo != ""
    ensures var s := Stem(c); |s| > |c.dateTo| && s[|s| - |c.dateTo| - 1..] == "_" + c.dateTo
  {
    var s := Stem(c);
    var front := "overall_" + c.seasonId + "_" + Join(c.cols, '-') + DateSuffix(c.dateFrom);
    assert s == front + ("_" + c.dateTo);
  }

  /** With only a lower bound, it is the last thing before ".csv". */
  lemma FileNameEndsWithLowerBound(c: Config)
    requires c.dateFrom != "" && c.dateTo == ""
    ensures var s := Stem(c); |s| > |c.dateFrom| && s[|s| - |c.dateFrom| - 1..] == "_" + c.dateFrom
  {
    var s := Stem(c);
    var front := "overall_" + c.seasonId + "_" + Join(c.cols, '-');
    assert s == front + ("_" + c.dateFrom);
  }

  /** With both bounds, the lower one comes first. */
  lemma FileNameWithBothBounds(c: Config)
    requires c.dateFrom != "" && c.dateTo != ""
    ensures var s := Stem(c); var tail := "_" + c.dateFrom + "_" + c.dateTo;
            |s| >= |tail| && s[|s| - |tail|..] == tail
  {
    var s := Stem(c);
    var front := "overall_" + c.seasonId + "_" + Join(c.cols, '-');
    assert s == front + ("_" + c.dateFrom + "_" + c.dateTo);
  }

  /** With no bounds, the columns are the last thing before ".csv". */
  lemma FileNameWithoutBounds(c: Config)
    requires c.dateFrom == "" && c.dateTo == ""
    ensures Stem(c) == "overall_" + c.seasonId + "_" + Join(c.cols, '-')
  {
  }

  /** A window with only one bound names its file the same way whichever
      bound it is. */
  lemma OneSidedWindowsShareAFileName(seasonId: string, cols: seq<string>, d: string)
    ensures FileName(Config(seasonId, d, "", cols)) == FileName(Config(seasonId, "", d, cols))
  {
  }

  lemma FileNameWithoutWindow()
    ensures FileName(NewConfig(2020, None, None, Some(["PTS", "TOV"])))
         == "overall_" + "2020-21" + "_" + "PTS-TOV" + ".csv"
  {
    SeasonId2020();
    var c := NewConfig(2020, None, None, Some(["PTS", "TOV"]));
    assert c == Config("2020-21", "", "", ["PTS", "TOV"]);
    assert Join(c.cols, '-') == "PTS-TOV";
  }

  lemma FileNameWithWindow()
    ensures FileName(NewConfig(2021, Some("2021-01-01"), Some("2021-02-01"), Some(["PTS", "TOV"])))
         == "overall_" + "2021-22" + "_" + "PTS-TOV" + "_" + "2021-01-01" + "_" + "2021-02-01" + ".csv"
  {
    SeasonId2021();
    var c := NewConfig(2021, Some("2021-01-01"), Some("2021-02-01"), Some(["PTS", "TOV"]));
    assert c == Config("2021-22", "2021-01-01", "2021-02-01", ["PTS", "TOV"]);
    assert Join(c.cols, '-') == "PTS-TOV";
    assert DateSuffix(c.dateFrom) == "_" + "2021-01-01";
    assert DateSuffix(c.dateTo) == "_" + "2021-02-01";
  }
}

=== FILE: seq_facts.dfy ===
/** Facts about sequences and their multisets shared by the table proofs. */
module SeqFacts {

  /** Rearranging a sequence keeps every element. */
  lemma PermutationKeepsMembers<T>(a: seq<T>, b: seq<T>)
    requires multiset(a) == multiset(b)
    ensures forall k :: 0 <= k < |a| ==> a[k] in b
  {
    forall k | 0 <= k < |a|
      ensures a[k] in b
    {
      assert a[k] in multiset(a);
    }
  }

  /** Every element of a rearrangement sits at some index of the original. */
  lemma PermutationIndex<T>(a: seq<T>, b: seq<T>, k: int) returns (i: int)
    requires multiset(a) == multiset(b)
    requires 0 <= k < |a|
    ensures 0 <= i < |b| && b[i] == a[k]
  {
    assert a[k] in multiset(a);
    assert a[k] in b;
    i :| 0 <= i < |b| && b[i] == a[k];
  }

  /** Removing the first element of `a` and a matching element of `b` from
      two rearrangements of each other leaves rearrangements of each other. */
  lemma PermutationRemove<T>(a: seq<T>, b: seq<T>, k: int)
    requires multiset(a) == multiset(b)
    requires |a| > 0 && 0 <= k < |b| && b[k] == a[0]
    ensures multiset(a[1..]) == multiset(b[..k] + b[k + 1..])
  {
    var m1 := multiset(a[1..]);
    var m2 := multiset(b[..k] + b[k + 1..]);
    assert a == [a[0]] + a[1..];
    assert multiset(a) == multiset{a[0]} + m1;
    assert b == b[..k] + [b[k]] + b[k + 1..];
    assert multiset(b) == multiset(b[..k]) + multiset{b[k]} + multiset(b[k + 1..]);
    assert m2 == multiset(b[..k]) + multiset(b[k + 1..]);
    assert multiset(b) == multiset{a[0]} + m2;
    assert forall x :: m1[x] == m2[x] by {
      forall x ensures m1[x] == m2[x] {
        assert (multiset{a[0]} + m1)[x] == (multiset{a[0]} + m2)[x];
      }
    }
  }
}

=== FILE: tables.dfy ===
/** The two downloaded tables and the composite score `analyze_stats` adds
    to each (nba.py lines 51-52 and 63-64). As written, the composite is the
    sum of the RAW selected columns, not of their `_ZSCORE` columns. */
module Tables {
  import opened Wrappers
  import opened SeqFacts

  /** One row of a stats table: the player's id and name, and every numeric
      column (AGE, GP, MIN and the statistics) by its header name. */
  datatype PlayerRow = PlayerRow(playerId: int, playerName: string, values: map<string, real>)

  /** A stats table: its numeric column headers and its rows, in the order
      the service returned them. */
  datatype Table = Table(columns: set<string>, rows: seq<PlayerRow>) {
    /** Every row has exactly the table's columns, as a data frame built
        from headers and row lists has. */
    predicate WellFormed()
    {
      forall i :: 0 <= i < |rows| ==> rows[i].values.Keys == columns
    }
  }

  /** A row together with its composite score (the new "ZSCORE" column). */
  datatype ScoredRow = ScoredRow(row: PlayerRow, zscore: real)

  datatype ScoredTable = ScoredTable(columns: set<string>, rows: seq<ScoredRow>) {
    predicate WellFormed()
    {
      forall i :: 0 <= i < |rows| ==> rows[i].row.values.Keys == columns
    }
  }

  /** Every selected column exists. */
  predicate HasColumns(columns: set<string>, cols: seq<string>)
  {
    forall i :: 0 <= i < |cols| ==> cols[i] in columns
  }

  /** Row-wise sum of the selected columns, left to right; a column listed
      twice is counted twice, as selecting it twice selects it twice. */
  function SumColumns(values: map<string, real>, cols: seq<string>): (r: real)
    requires HasColumns(values.Keys, cols)
    ensures |cols| == 0 ==> r == 0.0
    ensures |cols| == 1 ==> r == values[cols[0]]
    ensures (forall i :: 0 <= i < |cols| ==> values[cols[i]] >= 0.0) ==> r >= 0.0
    decreases |cols|
  {
    if |cols| == 0 then 0.0
    else values[cols[0]] + SumColumns(values, cols[1..])
  }

  /** The sum over a concatenation is the sum of the two sums. */
  lemma {:induction false} SumColumnsAppend(values: map<string, real>, a: seq<string>, b: seq<string>)
    requires HasColumns(values.Keys, a) && HasColumns(values.Keys, b)
    ensures HasColumns(values.Keys, a + b)
    ensures SumColumns(values, a + b) == SumColumns(values, a) + SumColumns(values, b)
    decreases |a|
  {
    if |a| > 0 {
      SumColumnsAppend(values, a[1..], b);
      assert (a + b)[1..] == a[1..] + b;
    } else {
      assert a + b == b;
    }
  }

  /** Column presence depends only on which columns are listed. */
  lemma HasColumnsPermutation(columns: set<string>, a: seq<string>, b: seq<string>)
    requires HasColumns(columns, a)
    requires multiset(a) == multiset(b)
    ensures HasColumns(columns, b)
  {
    PermutationKeepsMembers(b, a);
  }

  /** Taking one column out of the list takes its value out of the sum. */
  lemma SumColumnsRemove(values: map<string, real>, b: seq<string>, k: int)
    requires HasColumns(values.Keys, b)
    requires 0 <= k < |b|
    ensures HasColumns(values.Keys, b[..k] + b[k + 1..])
    ensures SumColumns(values, b) == values[b[k]] + SumColumns(values, b[..k] + b[k + 1..])
  {
    var front, back := b[..k], b[k + 1..];
    assert b == front + ([b[k]] + back);
    assert HasColumns(values.Keys, front) && HasColumns(values.Keys, back) by {
      assert forall i :: 0 <= i < |front| ==> front[i] == b[i];
      assert forall i :: k + 1 <= i < |b| ==> back[i - (k + 1)] == b[i];
    }
    assert HasColumns(values.Keys, [b[k]] + back) by {
      assert forall i :: k <= i < |b| ==> ([b[k]] + back)[i - k] == b[i];
    }
    SumColumnsAppend(values, front, [b[k]] + back);
    assert ([b[k]] + back)[1..] == back;
    SumColumnsAppend(values, front, back);
  }

  /** The composite does not depend on the order the columns are listed in. */
  lemma {:induction false} SumColumnsPermutation(values: map<string, real>, a: seq<string>, b: seq<string>)
    requires HasColumns(values.Keys, a)
    requires multiset(a) == multiset(b)
    ensures HasColumns(values.Keys, b)
    ensures SumColumns(values, a) == SumColumns(values, b)
    decreases |a|
  {
    HasColumnsPermutation(values.Keys, a, b);
    if |a| > 0 {
      assert a[0] in multiset(b);
      var k :| 0 <= k < |b| && b[k] == a[0];
      var rest := b[..k] + b[k + 1..];
      SumColumnsRemove(values, b, k);
      PermutationRemove(a, b, k);
      assert HasColumns(values.Keys, a[1..]) by {
        assert forall i :: 1 <= i < |a| ==> a[1..][i - 1] == a[i];
      }
      SumColumnsPermutation(values, a[1..], rest);
    }
  }

  /** `per_*_df["ZSCORE"] = per_*_df[cols].sum(axis="columns")`: absent
      (a KeyError that ends the run) when a selected column is missing,
      otherwise the same rows, unchanged and in the same order, each with
      its composite score. */
  function Composite(t: Table, cols: seq<string>): (r: Option<ScoredTable>)
    requires t.WellFormed()
    ensures r.Some? <==> HasColumns(t.columns, cols)
    ensures r.Some? ==> r.value.WellFormed() && r.value.columns == t.columns
    ensures r.Some? ==> |r.value.rows| == |t.rows|
    ensures r.Some? ==> forall i :: 0 <= i < |t.rows| ==>
              r.value.rows[i].row == t.rows[i] &&
              r.value.rows[i].zscore == SumColumns(t.rows[i].values, cols)
  {
    if !HasColumns(t.columns, cols) then None
    else Some(ScoredTable(t.columns, seq(|t.rows|, i requires 0 <= i < |t.rows| =>
                                                 ScoredRow(t.rows[i], SumColumns(t.rows[i].values, cols)))))
  }

  /** Listing the selected columns in another order leaves every composite
      score as it was. */
  lemma CompositeIgnoresColumnOrder(t: Table, a: seq<string>, b: seq<string>)
    requires t.WellFormed()
    requires multiset(a) == multiset(b)
    ensures Composite(t, a).Some? <==> Composite(t, b).Some?
    ensures Composite(t, a).Some? ==> Composite(t, a) == Composite(t, b)
  {
    if HasColumns(t.columns, a) {
      HasColumnsPermutation(t.columns, a, b);
      forall i | 0 <= i < |t.rows|
        ensures SumColumns(t.rows[i].values, a) == SumColumns(t.rows[i].values, b)
      {
        SumColumnsPermutation(t.rows[i].values, a, b);
      }
      assert Composite(t, a).value.rows == Composite(t, b).value.rows;
    } else {
      assert !HasColumns(t.columns, b) by {
        var k :| 0 <= k < |a| && a[k] !in t.columns;
        assert a[k] in multiset(b);
      }
    }
  }

  /** Selecting more columns adds their sum to every composite score. */
  lemma CompositeOfMoreColumns(t: Table, a: seq<string>, b: seq<string>, i: int)
    requires t.WellFormed()
    requires HasColumns(t.columns, a) && HasColumns(t.columns, b)
    requires 0 <= i < |t.rows|
    ensures Composite(t, a + b).Some?
    ensures Composite(t, a + b).value.rows[i].zscore
         == Composite(t, a).value.rows[i].zscore + SumColumns(t.rows[i].values, b)
  {
    SumColumnsAppend(t.rows[i].values, a, b);
  }
}

=== FILE: text.dfy ===
/** String helpers with Python's semantics: `str.split` on one separator
    character, `sep.join(parts)`, `str(int)` and the slice `s[-2:]`. */
module Text {

  // ---------------------------------------------------------------------------
  // Joining and splitting on one separator character
  // ---------------------------------------------------------------------------

  /** `sep.join(parts)`: the parts in order with one separator between
      neighbours; the empty list joins to the empty string. */
  function Join(parts: seq<string>, sep: char): (r: string)
    ensures |parts| == 0 ==> r == ""
    ensures |parts| >= 1 ==> parts[0] <= r
    ensures (forall i :: 0 <= i < |parts| ==> sep !in parts[i]) ==>
              Count(r, sep) + 1 == if |parts| == 0 then 1 else |parts|
    decreases |parts|
  {
    if |parts| == 0 then ""
    else if |parts| == 1 then CountFree(parts[0], sep); parts[0]
    else
      var tail := Join(parts[1..], sep);
      CountAppend(parts[0] + [sep], tail, sep);
      CountAppend(parts[0], [sep], sep);
      CountFree(parts[0], sep);
      parts[0] + [sep] + tail
  }

  /** Occurrences in a concatenation add up. */
  lemma {:induction false} CountAppend(a: string, b: string, c: char)
    ensures Count(a + b, c) == Count(a, c) + Count(b, c)
    decreases |a|
  {
    if |a| > 0 {
      CountAppend(a[1..], b, c);
      assert (a + b)[1..] == a[1..] + b;
    } else {
      assert a + b == b;
    }
  }

  /** A string without `c` holds no occurrence of it. */
  lemma {:induction false} CountFree(s: string, c: char)
    ensures c !in s ==> Count(s, c) == 0
    decreases |s|
  {
    if |s| > 0 {
      assert s == [s[0]] + s[1..];
      CountFree(s[1..], c);
    }
  }

  /** `s.split(sep)` for a one-character separator: never empty, no piece
      holds the separator, and there is one piece more than separators. */
  function Split(s: string, sep: char): (r: seq<string>)
    ensures |r| >= 1
    ensures forall i :: 0 <= i < |r| ==> sep !in r[i]
    ensures |r| == Count(s, sep) + 1
    decreases |s|
  {
    if |s| == 0 then [""]
    else
      var rest := Split(s[1..], sep);
      if s[0] == sep then [""] + rest
      else [[s[0]] + rest[0]] + rest[1..]
  }

  /** Number of occurrences of `c` in `s` */
  function Count(s: string, c: char): nat
  {
    if |s| == 0 then 0
    else (if s[0] == c then 1 else 0) + Count(s[1..], c)
  }

  /** Joining the pieces of a split gives back the string that was split. */
  lemma {:induction false} JoinSplit(s: string, sep: char)
    ensures Join(Split(s, sep), sep) == s
    decreases |s|
  {
    if |s| > 0 {
      var rest := Split(s[1..], sep);
      JoinSplit(s[1..], sep);
      if s[0] == sep {
        assert Split(s, sep) == [""] + rest;
        assert ([""] + rest)[1..] == rest;
        assert s == [sep] + s[1..];
      } else {
        var r := Split(s, sep);
        assert r == [[s[0]] + rest[0]] + rest[1..];
        if |rest| == 1 {
          assert s == [s[0]] + rest[0];
        } else {
          assert r[1..] == rest[1..];
          assert Join(rest, sep) == rest[0] + [sep] + Join(rest[1..], sep);
          assert s == [s[0]] + s[1..];
        }
      }
    }
  }

  /** A separator-free prefix lands at the front of the first piece. */
  lemma {:induction false} SplitPrefix(p: string, t: string, sep: char)
    requires sep !in p
    ensures Split(p + t, sep) == [p + Split(t, sep)[0]] + Split(t, sep)[1..]
    decreases |p|
  {
    if |p| > 0 {
      SplitPrefix(p[1..], t, sep);
      assert (p + t)[1..] == p[1..] + t;
      assert (p + t)[0] == p[0];
      assert [p[0]] + (p[1..] + Split(t, sep)[0]) == p + Split(t, sep)[0];
    } else {
      var r := Split(t, sep);
      assert p + t == t;
      assert p + r[0] == r[0];
      assert r == [r[0]] + r[1..];
    }
  }

  /** Splitting a join of separator-free parts gives the parts back
      (at least one part: the empty list and `[""]` both join to ""). */
  lemma {:induction false} SplitJoin(parts: seq<string>, sep: char)
    requires |parts| >= 1
    requires forall i :: 0 <= i < |parts| ==> sep !in parts[i]
    ensures Split(Join(parts, sep), sep) == parts
    decreases |parts|
  {
    if |parts| == 1 {
      SplitPrefix(parts[0], "", sep);
      assert parts[0] + "" == parts[0];
    } else {
      var tail := Join(parts[1..], sep);
      SplitJoin(parts[1..], sep);
      var u := Split([sep] + tail, sep);
      assert u == [""] + parts[1..] by {
        assert ([sep] + tail)[1..] == tail;
      }
      SplitPrefix(parts[0], [sep] + tail, sep);
      assert Join(parts, sep) == parts[0] + ([sep] + tail);
      assert u[0] == "" && u[1..] == parts[1..];
      assert parts[0] + "" == parts[0];
      assert parts == [parts[0]] + parts[1..];
    }
  }

  // ---------------------------------------------------------------------------
  // Decimal rendering of integers, as Python's str(int)
  // ---------------------------------------------------------------------------

  predicate IsDigit(c: char)
  {
    '0' <= c <= '9'
  }

  predicate AllDigits(s: string)
  {
    forall i :: 0 <= i < |s| ==> IsDigit(s[i])
  }

  function DigitChar(d: nat): (c: char)
    requires d < 10
    ensures IsDigit(c)
  {
    "0123456789"[d]
  }

  function DigitValue(c: char): nat
    requires IsDigit(c)
  {
    (c as int - '0' as int) as nat
  }

  /** Decimal digits of `n`, most significant first, with no leading zero. */
  function NatToDecimal(n: nat): (r: string)
    ensures |r| >= 1
    ensures AllDigits(r)
    ensures r[0] == '0' <==> n == 0
    ensures n < 10 <==> |r| == 1
    decreases n
  {
    if n < 10 then [DigitChar(n)]
    else NatToDecimal(n / 10) + [DigitChar(n % 10)]
  }

  /** Python's str(i): a minus sign before the digits of a negative number. */
  function IntToDecimal(i: int): (r: string)
    ensures |r| >= 1
    ensures i >= 0 ==> AllDigits(r)
    ensures i < 0 ==> r[0] == '-' && AllDigits(r[1..])
    ensures i > 0 ==> r[0] != '0'
    ensures i < 0 ==> |r| >= 2 && r[1] != '0'
    ensures i == 0 ==> r == "0"
  {
    if i < 0 then "-" + NatToDecimal(-i) else NatToDecimal(i)
  }

  /** Value of a string of decimal digits (0 for the empty string). */
  function DecimalValue(s: string): nat
    requires AllDigits(s)
    decreases |s|
  {
    if |s| == 0 then 0
    else DecimalValue(s[..|s| - 1]) * 10 + DigitValue(s[|s| - 1])
  }

  /** Value of an optionally signed decimal string: the inverse of
      `IntToDecimal` (no '+', whitespace or '_' is read). */
  function IntValue(s: string): int
    requires |s| >= 1
    requires if s[0] == '-' then AllDigits(s[1..]) else AllDigits(s)
  {
    if s[0] == '-' then -(DecimalValue(s[1..]) as int) else DecimalValue(s)
  }

  lemma {:induction false} DecimalRoundTrip(n: nat)
    ensures DecimalValue(NatToDecimal(n)) == n
    decreases n
  {
    var r := NatToDecimal(n);
    if n < 10 {
      assert r[..0] == "";
      assert DigitValue(DigitChar(n)) == n;
    } else {
      DecimalRoundTrip(n / 10);
      assert r[..|r| - 1] == NatToDecimal(n / 10);
      assert DigitValue(DigitChar(n % 10)) == n % 10;
    }
  }

  /** Reading back the rendering of any integer gives that integer. */
  lemma IntRoundTrip(i: int)
    ensures IntValue(IntToDecimal(i)) == i
  {
    if i < 0 {
      NegativeRoundTrip(i);
    } else {
      DecimalRoundTrip(i);
    }
  }

  /** The negative half of `IntRoundTrip`: the sign is read back as well. */
  lemma NegativeRoundTrip(i: int)
    requires i < 0
    ensures IntValue(IntToDecimal(i)) == i
  {
    var d := NatToDecimal(-i);
    DecimalRoundTrip(-i);
    var s := IntToDecimal(i);
    assert s == "-" + d;
    assert s[0] == '-' && s[1..] == d;
    assert IntValue(s) == -(DecimalValue(d) as int);
  }

  /** The last two digits of a number of at least two digits. */
  lemma LastTwoDigits(n: nat)
    requires n >= 10
    ensures var r := NatToDecimal(n);
            r[|r| - 2..] == [DigitChar((n / 10) % 10), DigitChar(n % 10)]
  {
    var r := NatToDecimal(n);
    var h := NatToDecimal(n / 10);
    assert r == h + [DigitChar(n % 10)];
    if n / 10 >= 10 {
      assert h == NatToDecimal(n / 100) + [DigitChar((n / 10) % 10)];
    } else {
      assert h == [DigitChar((n / 10) % 10)];
    }
  }

  // ---------------------------------------------------------------------------
  // Slicing
  // ---------------------------------------------------------------------------

  /** Python's `s[-2:]`: the last two characters, or all of a shorter string. */
  function LastTwo(s: string): (r: string)
    ensures |r| == if |s| < 2 then |s| else 2
    ensures r == s[|s| - |r|..]
  {
    if |s| <= 2 then s else s[|s| - 2..]
  }
}

=== FILE: wrappers.dfy ===
/** An optional value: `None` stands for a value pandas would show as missing
    (NaN) or for a step that raises and aborts the run. */
module Wrappers {

  datatype Option<+T> = None | Some(value: T) {

    /** The held value, or `fallback` for a missing one: how an optional
        constructor argument takes its default. */
    function GetOr(fallback: T): T
    {
      if Some? then value else fallback
    }
  }
}
